=== FILE: README.md ===
# Media player state model

A Dafny model of the state-transition layer of the single-page media player in
`media/media.js`: a playlist ("catalog") of songs, the visible list a search
box filters out of it, a playback cursor and a selection cursor into that list,
a wheel view that shows at most twelve entries around the selection, a
most-recent-first history of played song ids, the last-played id kept in
storage, a demo lyric highlighter that steps through a song's lines on a timer,
a bounded lyrics font size, and a Fisher-Yates shuffle of the catalog.

Drawing, browser storage, network loading, timers and the video frame are
reduced to the values they read or leave behind. Every handler is a pure
function from one immutable `Player.State` to the next.

Modules, one per concern of the script:

- `Index` (`index.dfy`): JavaScript's truncating `%` (`JsRem`) and
  `clampIndex` (`ClampIndex`). The code's formula `(i % len + len) % len` is
  kept as written. It is proved equal to Dafny's Euclidean `i % len`.
- `Text` (`text.dfy`): `trim`, `toLowerCase` and `includes` over
  `seq<char>`.
- `Seqs` (`seqs.dfy`): subsequence, no-duplicates, `filter(x => x !== id)`.
- `Catalog` (`catalog.dfy`): `Song`, the search haystack, the stable keyword
  filter, `findIndex`.
- `Recent` (`recent.dfy`): `pushRecent`.
- `Wheel` (`wheel.dfy`): the wheel's window of slots.
- `Lyrics` (`lyrics.dfy`): the highlight cycle and the font-size buttons.
- `Shuffle` (`shuffle.dfy`): Fisher-Yates as a function of the random draws,
  and the swap loop proved equal to it.
- `Player` (`player.dfy`): the state, `applyFilter`, `playAt`, next/previous,
  the wheel buttons, item clicks, drag and scroll, history chips, shuffle,
  and start-up.

Behaviour of `media.js` worth knowing, all of it modelled as written:

- Index wrap: the code returns 0 for every length `<= 0`, not only for 0.
- Search: the code searches the lower-cased text `title + " " + artist + " " + tag`,
  not each field on its own. A key that runs across a field boundary therefore
  matches (`Catalog.MatchSpansFields`).
- Drag: the code does not add up drag movement. Every pointer event becomes
  the new reference point, and only a single step of more than 3 pixels moves
  the selection. A drag whose every step is at most 3 pixels never selects
  anything, however many events it has (`Player.SlowDragNeverSelects`).
- History: the code loads the stored history without checking it. "No
  duplicates" therefore holds only if the stored list had none
  (`Player.PlayAt` states it as an implication). "At most ten entries" holds
  after every play, whatever was stored.
- Stored last id: `obj?.id || null` treats an empty id as absent
  (`Player.RestoreIndex`).

## Model

| member | source | states |
|---|---|---|
| Index.LenOr1 | media/media.js:244-245 | The wrap divisor `filtered.length`, with 0 replaced by 1: a positive length is kept, so the divisor is always positive. |
| Index.JsRem | media/media.js:36 | JavaScript's `a % n`: the remainder truncated toward zero. Its sign follows `a` and it is smaller than `|n|` in size. For `a >= 0` it is the Euclidean remainder, and for `a < 0` the negated remainder of `-a`. |
| Index.ClampIndex | media/media.js:34-37 | 0 for a length <= 0. Otherwise a value in [0, len) equal to the Euclidean `i mod len`. An index already in range is returned unchanged. |
| Index.ClampFormulaIsMod | media/media.js:36 | The double truncating remainder `(i % len + len) % len` equals the Euclidean `i mod len` for every integer `i` and positive `len`. |
| Index.WrapNext | media/media.js:301-304 | One step forward from a valid index wraps the last index to 0 and otherwise adds one. |
| Index.WrapPrev | media/media.js:306-309 | One step back from a valid index wraps 0 to the last index and otherwise subtracts one. |
| Text.SkipSpaces | media/media.js:234 | The first position at or after `k` that is not white space, or the end of the text. Everything skipped is white space. |
| Text.SkipSpacesBack | media/media.js:234 | Walking back from `k` no further than `lo`, the end left once trailing white space is dropped. Everything dropped is white space, and the character before the end is not. |
| Text.Trim | media/media.js:234 | The trimmed text is the slice of the input that starts at its first non-space, `SkipSpaces(s, 0)`. Everything after the slice is white space. The slice is empty exactly when the input is all white space, and otherwise starts and ends with a non-space. |
| Text.LowerChar | media/media.js:234 | An ASCII capital becomes its small letter (code point + 32). Every other character is unchanged. |
| Text.Lower | media/media.js:234 | The lower-cased string has the same length. Each character is lowered on its own. |
| Text.Includes | media/media.js:239 | `hay.includes(k)` holds exactly when `k` occurs at some position of `hay`. |
| Seqs.Without | media/media.js:75 | Removing an id keeps every other element, each as often as before, in order. The removed id no longer occurs. It keeps a list duplicate-free and is the identity when the id is absent. |
| Catalog.HaystackLayout | media/media.js:238-239 | The text a song is searched in (`Catalog.Haystack`, tested by `Catalog.Matches` with `Includes`). It is the title, a space, the artist, a space and the tag, each character lower-cased in place. |
| Catalog.SearchKey | media/media.js:234 | The key is the trimmed text lower-cased character by character. It is empty exactly when the typed text is all white space. |
| Catalog.FilterSongs | media/media.js:237-240 | The filter result is an order-preserving subsequence of the catalog. |
| Catalog.FilterSongsExact | media/media.js:237-240 | Every kept song contains the key. A matching song appears as often as in the catalog and a non-matching one not at all. |
| Catalog.FilterByEmptyKeepsAll | media/media.js:235 | The empty key matches every song, so filtering by it returns the catalog. |
| Catalog.Visible | media/media.js:234-241 | A blank keyword yields exactly the catalog. Any keyword yields a subsequence of it. |
| Catalog.VisibleIsFilter | media/media.js:234-241 | For every keyword, the visible list is the filtered catalog, with the matching characterisation of `FilterSongsExact`. |
| Catalog.EmptySearchShowsAll | media/media.js:235 | An empty search text shows the whole catalog. |
| Catalog.MatchSpansFields | media/media.js:238-239 | A key spanning title and artist matches the joined haystack, although no single field contains it. |
| Catalog.FindIndex | media/media.js:474 | Returns -1 exactly when no song has the id. Otherwise returns the first position holding it. |
| Recent.PushRecent | media/media.js:72-75 | The id comes first and is not repeated. At most ten entries. The rest is the old list without the id, in order, truncated. Only old ids or the new id appear. No duplicates if the old list had none. |
| Recent.PushRecentIdempotent | media/media.js:75 | Pushing the same id twice gives the same history as pushing it once. |
| Recent.PushRecentKeepsOrder | media/media.js:75 | The entries after the first form a subsequence of the old history. |
| Wheel.Window | media/media.js:191-205 | The window has `min(12, n)` slots, none for an empty list. All slots are in range and pairwise distinct, and consecutive around the circle. The middle slot is the selection, and it is the only slot equal to it. |
| Wheel.Slots | media/media.js:199-201 | Slot `k` holds `clampIndex(start + k, n)`, the position `(start + k) mod n`, for each of the `m` slots. |
| Lyrics.StartHighlight | media/media.js:288-294 | No cycle starts for a song without lines. Otherwise the cycle starts at line 0 over all the lines. |
| Lyrics.Tick | media/media.js:295-297 | A tick moves the highlight one line on and wraps from the last line to line 0. It stays in range and leaves a stopped highlighter stopped. |
| Lyrics.Ticks | media/media.js:295-297 | Any number of timer callbacks in a row keep a running highlight running with the same line count, so its index stays inside the song's lines. A stopped highlight stays stopped. |
| Lyrics.HighlightCycles | media/media.js:293-297 | After `k` ticks, the highlight of a song with `n > 0` lines is on line `k mod n`. |
| Lyrics.NoLinesNoCycle | media/media.js:290-291 | A song without lines never gets a running cycle. |
| Lyrics.Bigger | media/media.js:441 | One size larger, capped at 20. An in-range size stays in [12, 20]. |
| Lyrics.Smaller | media/media.js:446 | One size smaller, floored at 12. An in-range size stays in [12, 20]. |
| Lyrics.BiggerSaturates | media/media.js:440-441 | `k` presses from an in-range size give `min(20, f + k)`. |
| Lyrics.SmallerSaturates | media/media.js:445-446 | `k` presses from an in-range size give `max(12, f - k)`. |
| Lyrics.FontScenario | media/media.js:440-449 | From 14, nine presses of "bigger" give 20 and ten presses of "smaller" give 12. |
| Shuffle.Swap | media/media.js:317 | Exchanges two positions and leaves every other position as it was. |
| Shuffle.SwapPermutes | media/media.js:317 | A swap leaves the multiset of songs unchanged. |
| Shuffle.FisherYates | media/media.js:314-318 | The pass keeps the length, and positions above the current step are untouched. |
| Shuffle.FisherYatesPermutes | media/media.js:314-318 | For every sequence of draws with `j <= i`, the pass is a permutation of the input. |
| Shuffle.ShuffleSongs | media/media.js:314-319 | The swap loop returns a permutation of the catalog, equal to the functional pass over the same draws. |
| Player.LinesOf | media/media.js:290 | A song's lines, or none when the lyrics map has no entry for its id. |
| Player.ApplyFilter | media/media.js:233-245 | The visible list is recomputed. Both cursors are wrapped into it, an in-range cursor is kept, and both are 0 on an empty list. Nothing else changes. |
| Player.Search | media/media.js:430-432 | The typed text becomes the query, and the result is exactly the filter applied to it: only the visible list and the cursors change. The visible list is consistent with the text, and the bounds invariant is kept. |
| Player.NoMatchEmptiesList | media/media.js:233-245 | A key that matches no song gives an empty list, and both cursors become 0. |
| Player.PlayAt | media/media.js:261-285 | No-op on an empty list. Otherwise both cursors become the clamped index. The history becomes `pushRecent` of the song: it heads the history, at most ten entries, no repeat. The song becomes the stored last song and its highlight restarts. The lists are unchanged. |
| Player.NextSong | media/media.js:301-305 | The playback cursor moves one on and wraps from the last entry to the first. No-op on an empty list. |
| Player.PrevSong | media/media.js:306-310 | The playback cursor moves one back and wraps from the first entry to the last. No-op on an empty list. |
| Player.PrevUndoesNext | media/media.js:301-310 | "Previous" after "next" returns the playback cursor to where it was. |
| Player.MoveSelection | media/media.js:419 | Only the selection cursor moves, to the clamped `selected + dir`. Playback is untouched. |
| Player.WheelLeft | media/media.js:418-422 | The selection moves one back and wraps to the last entry. Nothing else changes. |
| Player.WheelRight | media/media.js:423-427 | The selection moves one on and wraps to the first entry. Nothing else changes. |
| Player.WheelRightUndoesLeft | media/media.js:418-427 | "Right" after "left" restores the state. |
| Player.WheelPick | media/media.js:428 | Picking the centre item is exactly playing the selected entry: both cursors are on it, and it heads the history. |
| Player.WheelSlots | media/media.js:195-205 | The drawn slots are distinct and in range. Exactly the middle one is active. |
| Player.WheelClick | media/media.js:209-213 | Clicking a wheel item selects the entry shown in that slot. |
| Player.PointerDown | media/media.js:348-351 | Dragging starts, and the pointer position is the reference point. |
| Player.PointerUp | media/media.js:365 | Dragging stops. |
| Player.PointerMove | media/media.js:352-364 | With no drag in progress, nothing happens. A step of more than 3 pixels to the right selects the previous entry, one to the left the next. While dragging, every event makes the pointer the new reference point. |
| Player.DragAll | media/media.js:352-364 | A sequence of pointer moves. With no drag in progress nothing changes. During a drag the reference point ends at the last position. |
| Player.SlowDragNeverSelects | media/media.js:352-364 | A drag whose every step, counted from the press point, is at most 3 pixels leaves the player state unchanged, for any number of events and any distance covered. |
| Player.SlowDragSelectsNothing | media/media.js:352-364 | For example, three 3-pixel steps after pressing at 0 select nothing. |
| Player.Scroll | media/media.js:376-382 | Positive `deltaY` selects the next entry, anything else the previous one. With the cursors in range, scrolling down is the wheel's "right" button and anything else its "left" button. Playback is untouched. |
| Player.FontBigger | media/media.js:440-444 | Only the font size changes, to the capped larger size. |
| Player.FontSmaller | media/media.js:445-449 | Only the font size changes, to the floored smaller size. |
| Player.TickLyrics | media/media.js:295-298 | Only the highlight changes, by one tick. |
| Player.ClearRecent | media/media.js:434-438 | The history becomes empty, and nothing else changes. |
| Player.ClearSearch | media/media.js:96-97 | The search box is emptied and the whole catalog becomes visible, with both cursors clamped into it. Nothing else changes: no song plays and the history is untouched. |
| Player.PlayRecent | media/media.js:91-100 | For an id in the visible list, this is exactly playing its first position there. Otherwise, for an id in the catalog, it is exactly clearing the search and then playing its first catalog position. An id in no song only clears the search. In the first two cases the song heads the history. |
| Player.Reshuffle | media/media.js:314-320 | The catalog becomes the Fisher-Yates pass over the draws, a permutation of itself, and the query is re-applied to it. Only the catalog, the visible list and the cursors change. |
| Player.ShuffleAll | media/media.js:312-322 | The catalog becomes the Fisher-Yates pass over the draws, a permutation of itself, and the query is re-applied. When the visible list is non-empty, its first entry plays: both cursors are at 0, it is pushed onto the history and stored as the last song, and its lyrics start. Otherwise the cursors are 0 and history, last song and highlight are unchanged. The lyrics and font size never change. |
| Player.RestoreIndex | media/media.js:472-480 | The position of the first song with the stored id. 0 when no id is stored, the id is empty, or no song has it. |
| Player.Restored | media/media.js:466-480 | Before the first play, the whole catalog is visible and both cursors are at the restored position. The stored history is loaded as stored. |
| Player.Startup | media/media.js:460-490 | Start-up satisfies the bounds invariant and shows the whole catalog. Both cursors are on the same entry, and the lyrics map is the one loaded. On a non-empty catalog it plays the restored song: the song is pushed onto the stored history, stored as the last song, and its lyrics start. On an empty catalog the stored last song is kept and no lyric is highlighted. |
| Player.StartupConsistent | media/media.js:469 | After start-up, the visible list matches the empty search text. |
| Player.TwoLineScenario | media/media.js:288-298 | Playing a song with two lyric lines highlights lines 0, 1, 0, 1, ... tick after tick. |
| Player.ThreeSongScenario | media/media.js:301-305 | With songs A, B and C, playing C and pressing "next" wraps to A. |

## Left out

- Drawing: `setNowPlaying`, `renderList`, `renderWheel`'s markup and angles, `renderRecent`'s chips, `renderLyrics`, `setLyricsActive`, `updateCenter` and the "No results" texts. They only write to the page. The model keeps the cursors, lists and history they display, but not the lyric line shown (next line).
- Lyrics.Highlight: `line` is the demo timer's index, not the line shown on the page. The font-size buttons redraw the panel with line 0 highlighted while the timer's index keeps counting, and the shown line catches up at the next tick. An empty search result clears the panel while the timer keeps running.
- Storage: `saveRecent`, `loadRecent`, `saveLast` and `loadLastId`. Stored values are inputs (`Option` values) or fields (`recent`, `lastPlayed`), and JSON parsing is not modelled. A read or parse failure is the same as `None`.
- Loading: `loadJSON`, `fetch` and the fatal error alert of `main`. The catalog and lyrics map are inputs to `Player.Startup`.
- Timers: the 4-second interval itself. Only the step it performs is modelled (`Lyrics.Tick`). Clearing the previous timer is modelled by `PlayAt` replacing the highlight state.
- `Math.random`: replaced by the `draws` sequence, one pick `j <= i` per step.
- The video frame, `btnPlay`, `btnOpenYT`, `btnCopyLink`, `copyText`, `ytEmbedUrl` and `ytWatchUrl`. They are foreign calls and string templates, and they change no player state.
- `setView` and the loop and auto-scroll toggles. They flip display flags and labels. Nothing reads the loop flag. `setLyricsActive` reads the auto-scroll flag only to scroll the page, and no player state changes.
- Player.Startup: start-up assumes that no handler runs while the playlist and lyrics load. `initUI` installs the handlers before those awaits. The model therefore starts with an empty search box, font size 14 and the history as stored. In the browser, text typed meanwhile stays in the box. `main` still shows the whole catalog without reading the box, and the next shuffle re-applies that text.
- Player.LinesOf: the lyrics are a map. In the browser they are a parsed JSON object, where `lyrics[id] || []` also finds inherited members (an id such as `constructor`). `renderLyrics` then throws, so `playAt` stops after moving the cursors: no history push, no `saveLast`, and the previous song's timer keeps running. The model plays such a song as having no lyrics.
- Catalog.Song: every field is a present string. In the browser a song whose JSON entry lacks a field, typically `tag`, is searched in a text ending in `undefined`, so it matches the key "undefined". The model does not represent missing fields.
- `pushRecent`'s `if (!song) return`: its only caller, `playAt`, always passes a song from a non-empty list, so the model passes the id directly.
- Pointer coordinates and `deltaY` are integers in the model. They are floating-point numbers in the browser.
- Text.LowerChar: see `Text.Lower`, which applies it to every character.
- Text.Lower: lowers only `A`-`Z`. JavaScript's `toLowerCase` also lowers non-ASCII capitals, such as Vietnamese letters, so a search for such text can differ from the model.
- Text.Trim: works on Unicode scalar values, not on UTF-16 code units. The white-space set is the ECMAScript one, so results agree for every character it contains.

=== FILE: catalog.dfy ===
/**
  The song catalog and the keyword search that derives the visible list from
  it (`applyFilter`'s first half, media/media.js).
 */
module Catalog {
  import opened Text
  import opened Seqs

  type SongId = string

  /** One entry of the playlist: an id, the displayed text and the video reference. */
  datatype Song = Song(id: SongId, title: string, artist: string, tag: string, videoRef: string)

  /** The text a keyword is searched in: title, artist and tag joined by
      single spaces, then lower-cased. */
  function Haystack(s: Song): string
  {
    Lower(s.title + " " + s.artist + " " + s.tag)
  }

  /** The haystack character by character: the lower-cased title, a space,
      the lower-cased artist, a space and the lower-cased tag. */
  lemma HaystackLayout(s: Song)
    ensures var hay := Haystack(s);
      && |hay| == |s.title| + |s.artist| + |s.tag| + 2
      && hay[|s.title|] == ' ' && hay[|s.title| + 1 + |s.artist|] == ' '
      && (forall i :: 0 <= i < |s.title| ==> hay[i] == LowerChar(s.title[i]))
      && (forall i :: 0 <= i < |s.artist| ==> hay[|s.title| + 1 + i] == LowerChar(s.artist[i]))
      && (forall i :: 0 <= i < |s.tag| ==> hay[|s.title| + |s.artist| + 2 + i] == LowerChar(s.tag[i]))
  {
  }

  /** The search key made from the text typed in the search box. */
  function SearchKey(keyword: string): (k: string)
    ensures |k| == |Trim(keyword)|
    ensures k == [] <==> forall i :: 0 <= i < |keyword| ==> IsSpace(keyword[i])
    ensures forall i :: 0 <= i < |k| ==> k[i] == LowerChar(Trim(keyword)[i])
  {
    Lower(Trim(keyword))
  }

  predicate Matches(s: Song, k: string)
  {
    Includes(Haystack(s), k)
  }

  /** `songs.filter(s => hay.includes(k))`: the matching songs, in catalog order. */
  function FilterSongs(songs: seq<Song>, k: string): (r: seq<Song>)
    ensures |r| <= |songs|
    ensures IsSubsequence(r, songs)
  {
    if songs == [] then []
    else
      var rest := FilterSongs(songs[1..], k);
      if Matches(songs[0], k) then
        assert ([songs[0]] + rest)[1..] == rest;
        [songs[0]] + rest
      else
        WeakenSubsequence(rest, songs);
        rest
  }

  /** The filter keeps exactly the matching songs: every kept song matches,
      and each song occurs in the result as often as in the catalog when it
      matches and not at all otherwise. */
  lemma {:induction false} FilterSongsExact(songs: seq<Song>, k: string)
    ensures var r := FilterSongs(songs, k);
      && (forall i :: 0 <= i < |r| ==> Matches(r[i], k))
      && (forall s :: multiset(r)[s] == if Matches(s, k) then multiset(songs)[s] else 0)
  {
    if songs != [] {
      FilterSongsExact(songs[1..], k);
      assert songs == [songs[0]] + songs[1..];
      assert multiset(songs) == multiset{songs[0]} + multiset(songs[1..]);
    }
  }

  /** The empty key occurs in every haystack, so filtering by it keeps the
      whole catalog. */
  lemma {:induction false} FilterByEmptyKeepsAll(songs: seq<Song>)
    ensures FilterSongs(songs, "") == songs
  {
    if songs != [] {
      assert Matches(songs[0], "") by {
        assert OccursAt("", Haystack(songs[0]), 0);
      }
      FilterByEmptyKeepsAll(songs[1..]);
    }
  }

  /** The visible list for a search box text: the whole catalog when the text
      is blank, otherwise the catalog filtered by the lower-cased, trimmed
      text. */
  function Visible(songs: seq<Song>, keyword: string): (r: seq<Song>)
    ensures SearchKey(keyword) == [] ==> r == songs
    ensures IsSubsequence(r, songs)
  {
    var k := SearchKey(keyword);
    if k == [] then
      FilterByEmptyKeepsAll(songs);
      songs
    else FilterSongs(songs, k)
  }

  /** An empty search box shows the whole catalog. */
  lemma EmptySearchShowsAll(songs: seq<Song>)
    ensures Visible(songs, []) == songs
  {
    assert SearchKey([]) == [];
  }

  /** The blank-keyword shortcut changes nothing: the visible list is always
      the catalog filtered by the search key, so it holds exactly the songs
      whose haystack contains the key, each as often as in the catalog, in
      catalog order. */
  lemma VisibleIsFilter(songs: seq<Song>, keyword: string)
    ensures Visible(songs, keyword) == FilterSongs(songs, SearchKey(keyword))
    ensures var r := Visible(songs, keyword);
      && (forall i :: 0 <= i < |r| ==> Matches(r[i], SearchKey(keyword)))
      && (forall s :: multiset(r)[s] == if Matches(s, SearchKey(keyword)) then multiset(songs)[s] else 0)
  {
    if SearchKey(keyword) == [] {
      FilterByEmptyKeepsAll(songs);
    }
    FilterSongsExact(songs, SearchKey(keyword));
  }

  /** The key is searched in the joined text, so a key that runs across the
      space between two fields matches although no single field holds it. */
  lemma MatchSpansFields()
    ensures var s := Song("1", "ab", "cd", "", "v");
      && Matches(s, "b c")
      && !Includes(s.title, "b c") && !Includes(s.artist, "b c") && !Includes(s.tag, "b c")
  {
    var s := Song("1", "ab", "cd", "", "v");
    assert Haystack(s) == "ab cd ";
    assert OccursAt("b c", Haystack(s), 1);
  }

  /** `songs.findIndex(s => s.id === id)`: the first position holding `id`,
      or -1. */
  function FindIndex(songs: seq<Song>, id: SongId): (r: int)
    ensures -1 <= r < |songs|
    ensures r == -1 <==> forall i :: 0 <= i < |songs| ==> songs[i].id != id
    ensures r >= 0 ==> songs[r].id == id && forall i :: 0 <= i < r ==> songs[i].id != id
  {
    if songs == [] then -1
    else if songs[0].id == id then 0
    else
      var r := FindIndex(songs[1..], id);
      if r == -1 then -1 else r + 1
  }
}

=== FILE: index.dfy ===
/**
  Index arithmetic of the player: JavaScript's truncating remainder and the
  `clampIndex` wrap that every cursor move goes through.
 */
module Index {

  /** JavaScript's `a % n`: the remainder of the division truncated toward
      zero, so its sign follows the dividend (`-7 % 3 == -1`). */
  function JsRem(a: int, n: int): (r: int)
    requires n != 0
    ensures a >= 0 ==> 0 <= r < Abs(n)
    ensures a < 0 ==> -Abs(n) < r <= 0
    ensures a >= 0 ==> r == a % Abs(n)
    ensures a < 0 ==> r == -((-a) % Abs(n))
  {
    var m := Abs(a) % Abs(n);
    if a >= 0 then m else -m
  }

  function Abs(x: int): (r: int)
    ensures r >= 0 && (r == x || r == -x)
  {
    if x >= 0 then x else -x
  }

  /** `len || 1`: a zero length is replaced by one before wrapping. */
  function LenOr1(len: nat): (r: nat)
    ensures r > 0
    ensures len > 0 ==> r == len
  {
    if len == 0 then 1 else len
  }

  /** `clampIndex(i, len)`: 0 for a non-positive length, otherwise the
      formula `(i % len + len) % len` evaluated with JavaScript's `%`. */
  function ClampIndex(i: int, len: int): (r: int)
    ensures len <= 0 ==> r == 0
    ensures len > 0 ==> 0 <= r < len
    ensures len > 0 ==> r == i % len
    ensures 0 <= i < len ==> r == i
  {
    if len <= 0 then 0
    else
      ClampFormulaIsMod(i, len);
      assert 0 <= i < len ==> i % len == i by {
        if 0 <= i < len { ModUnique(i, len, 0, i); }
      }
      JsRem(JsRem(i, len) + len, len)
  }

  /** If `a == k * n + m` with `0 <= m < n` then `m` is Dafny's `a % n`. */
  lemma ModUnique(a: int, n: int, k: int, m: int)
    requires n > 0 && 0 <= m < n && a == k * n + m
    ensures a % n == m
  {
    var q, r := a / n, a % n;
    assert a == q * n + r;
    assert (k - q) * n == r - m;
    MulZero(k - q, n);
  }

  /** A multiple of a positive `n` strictly between `-n` and `n` is zero. */
  lemma MulZero(d: int, n: int)
    requires n > 0 && -n < d * n < n
    ensures d == 0
  {
    if d != 0 {
      MulAtLeast(if d > 0 then d else -d, n);
    }
  }

  lemma MulAtLeast(d: int, n: int)
    requires d >= 1 && n > 0
    ensures d * n >= n
  {
  }

  /** The source's double remainder agrees with the Euclidean remainder. */
  lemma ClampFormulaIsMod(i: int, len: int)
    requires len > 0
    ensures JsRem(JsRem(i, len) + len, len) == i % len
  {
    if i >= 0 {
      var r := i % len;
      assert JsRem(i, len) == r;
      ModUnique(r + len, len, 1, r);
    } else {
      var b := -i;
      var q, r := b / len, b % len;
      assert b == q * len + r;
      assert JsRem(i, len) == -r;
      if r == 0 {
        ModUnique(i, len, -q, 0);
        ModUnique(len, len, 1, 0);
      } else {
        ModUnique(i, len, -q - 1, len - r);
        ModUnique(len - r, len, 0, len - r);
      }
    }
  }

  /** Two integers fewer than `n` apart never share a remainder mod `n`. */
  lemma ModDistinct(a: int, b: int, n: int)
    requires n > 0 && a < b < a + n
    ensures a % n != b % n
  {
    var qa, qb := a / n, b / n;
    assert a == qa * n + a % n;
    assert b == qb * n + b % n;
    if a % n == b % n {
      assert b - a == (qb - qa) * n;
      MulZero(qb - qa, n);
    }
  }

  /** One step forward from a valid index wraps from the last to the first. */
  lemma WrapNext(i: int, n: int)
    requires 0 <= i < n
    ensures (i + 1) % n == if i == n - 1 then 0 else i + 1
  {
    if i == n - 1 {
      ModUnique(i + 1, n, 1, 0);
    } else {
      ModUnique(i + 1, n, 0, i + 1);
    }
  }

  /** One step back from a valid index wraps from the first to the last. */
  lemma WrapPrev(i: int, n: int)
    requires 0 <= i < n
    ensures (i - 1) % n == if i == 0 then n - 1 else i - 1
  {
    if i == 0 {
      ModUnique(i - 1, n, -1, n - 1);
    } else {
      ModUnique(i - 1, n, 0, i - 1);
    }
  }

  /** Stepping one on commutes with reducing mod `n`. */
  lemma ModStep(a: int, n: int)
    requires n > 0
    ensures (a + 1) % n == (a % n + 1) % n
  {
    var q, m := a / n, a % n;
    assert a == q * n + m;
    if m + 1 < n {
      ModUnique(a + 1, n, q, m + 1);
      ModUnique(m + 1, n, 0, m + 1);
    } else {
      assert (q + 1) * n == q * n + n;
      ModUnique(a + 1, n, q + 1, 0);
      ModUnique(m + 1, n, 1, 0);
    }
  }
}

=== FILE: lyrics.dfy ===
/**
  The lyrics panel: the demo line highlighter (`startDemoLyricsHighlight`)
  and the font-size buttons.
 */
module Lyrics {
  import opened Index

  /** State of the repeating highlight timer: none running, or one cycling
      through `count` lines with its index `idx` at `line`. This is the timer's
      index; the panel shows it from the next tick on, but a font-size button
      redraws the panel with line 0 highlighted meanwhile. */
  datatype Highlight = Off | Cycling(count: nat, line: nat)

  /** A running cycle always has a line to show. */
  predicate ValidHighlight(h: Highlight)
  {
    h.Cycling? ==> h.line < h.count
  }

  /** Starting a song's highlighter: the previous timer is always cleared;
      a new one starts at line 0 only when the song has lyric lines. */
  function StartHighlight(lines: seq<string>): (h: Highlight)
    ensures ValidHighlight(h)
    ensures h.Off? <==> |lines| == 0
    ensures h.Cycling? ==> h.count == |lines| && h.line == 0
  {
    if |lines| == 0 then Off else Cycling(|lines|, 0)
  }

  /** One timer tick: `idx = (idx + 1) % lines.length`. */
  function Tick(h: Highlight): (r: Highlight)
    requires ValidHighlight(h)
    ensures ValidHighlight(r)
    ensures r.Off? <==> h.Off?
    ensures h.Cycling? ==> r.count == h.count
    ensures h.Cycling? ==> r.line == if h.line + 1 == h.count then 0 else h.line + 1
  {
    match h
    case Off => Off
    case Cycling(n, i) => Cycling(n, (i + 1) % n)
  }

  /** `k` ticks in a row. */
  function Ticks(h: Highlight, k: nat): (r: Highlight)
    requires ValidHighlight(h)
    ensures ValidHighlight(r)
    ensures r.Off? <==> h.Off?
    ensures h.Cycling? ==> r.count == h.count
    decreases k
  {
    if k == 0 then h else Ticks(Tick(h), k - 1)
  }

  /** After `k` ticks the highlighted line of a song with lyrics is `k` mod the
      line count: the highlight runs 0, 1, ..., n - 1 and starts over at 0. */
  lemma {:induction false} HighlightCycles(lines: seq<string>, k: nat)
    requires |lines| > 0
    ensures Ticks(StartHighlight(lines), k) == Cycling(|lines|, k % |lines|)
  {
    var n := |lines|;
    var h := StartHighlight(lines);
    var i := 0;
    var cur := h;
    while i < k
      invariant i <= k
      invariant cur == Cycling(n, i % n)
      invariant Ticks(h, k) == Ticks(cur, k - i)
    {
      ModStep(i, n);
      cur := Tick(cur);
      i := i + 1;
    }
  }

  /** A song without lyric lines never starts a cycle, however long it plays. */
  lemma {:induction false} NoLinesNoCycle(k: nat)
    ensures Ticks(StartHighlight([]), k) == Off
  {
    if k > 0 {
      NoLinesNoCycle(k - 1);
    }
  }

  const MinFont := 12
  const MaxFont := 20
  /** The panel's font size when the page loads. */
  const InitialFont := 14

  /** The "bigger" button: `Math.min(20, fontSize + 1)`. */
  function Bigger(f: int): (r: int)
    ensures MinFont <= f <= MaxFont ==> MinFont <= r <= MaxFont
    ensures f < MaxFont ==> r == f + 1
    ensures f + 1 >= MaxFont ==> r == MaxFont
  {
    if f + 1 < MaxFont then f + 1 else MaxFont
  }

  /** The "smaller" button: `Math.max(12, fontSize - 1)`. */
  function Smaller(f: int): (r: int)
    ensures MinFont <= f <= MaxFont ==> MinFont <= r <= MaxFont
    ensures f > MinFont ==> r == f - 1
    ensures f - 1 <= MinFont ==> r == MinFont
  {
    if f - 1 > MinFont then f - 1 else MinFont
  }

  function BiggerTimes(f: int, k: nat): int
    decreases k
  {
    if k == 0 then f else BiggerTimes(Bigger(f), k - 1)
  }

  function SmallerTimes(f: int, k: nat): int
    decreases k
  {
    if k == 0 then f else SmallerTimes(Smaller(f), k - 1)
  }

  /** Pressing "bigger" `k` times from an in-range size grows it by `k`,
      stopping at 20. */
  lemma {:induction false} BiggerSaturates(f: int, k: nat)
    requires MinFont <= f <= MaxFont
    ensures BiggerTimes(f, k) == if f + k < MaxFont then f + k else MaxFont
    decreases k
  {
    if k > 0 {
      BiggerSaturates(Bigger(f), k - 1);
    }
  }

  /** Pressing "smaller" `k` times from an in-range size shrinks it by `k`,
      stopping at 12. */
  lemma {:induction false} SmallerSaturates(f: int, k: nat)
    requires MinFont <= f <= MaxFont
    ensures SmallerTimes(f, k) == if f - k > MinFont then f - k else MinFont
    decreases k
  {
    if k > 0 {
      SmallerSaturates(Smaller(f), k - 1);
    }
  }

  /** From the initial 14, nine presses of "bigger" reach 20 and ten presses
      of "smaller" reach 12. */
  lemma FontScenario()
    ensures BiggerTimes(InitialFont, 9) == MaxFont
    ensures SmallerTimes(InitialFont, 10) == MinFont
  {
    BiggerSaturates(InitialFont, 9);
    SmallerSaturates(InitialFont, 10);
  }
}

=== FILE: player.dfy ===
/**
  The player's state and the transitions its buttons, gestures, timer and
  start-up perform on it (media/media.js), with drawing, storage writes and
  the video frame reduced to the state they leave behind.
 */
module Player {
  import opened Wrappers
  import opened Index
  import opened Seqs
  import opened Catalog
  import opened Recent
  import opened Wheel
  import opened Lyrics
  import opened Shuffle

  /** The page's `state` object, plus the search box text (`query`) and the
      last-played id kept in storage (`lastPlayed`). */
  datatype State = State(
    songs: seq<Song>,
    filtered: seq<Song>,
    lyrics: map<SongId, seq<string>>,
    query: string,
    currentIndex: int,
    selectedIndex: int,
    fontSize: int,
    recent: seq<SongId>,
    lastPlayed: Option<SongId>,
    highlight: Highlight)

  /** Both cursors point into the visible list, or are both 0 when it is empty. */
  predicate CursorsInRange(st: State)
  {
    if |st.filtered| == 0 then st.currentIndex == 0 && st.selectedIndex == 0
    else 0 <= st.currentIndex < |st.filtered| && 0 <= st.selectedIndex < |st.filtered|
  }

  /** The bounds every reachable state keeps: cursors, font size and
      highlighted line. */
  predicate Valid(st: State)
  {
    && CursorsInRange(st)
    && MinFont <= st.fontSize <= MaxFont
    && ValidHighlight(st.highlight)
  }

  /** The visible list is the catalog seen through the search box text.
      Transitions that leave catalog, list and text alone keep it trivially. */
  predicate Consistent(st: State)
  {
    st.filtered == Visible(st.songs, st.query)
  }

  /** `state.lyrics[id] || []`. */
  function LinesOf(st: State, id: SongId): (lines: seq<string>)
    ensures id in st.lyrics ==> lines == st.lyrics[id]
    ensures id !in st.lyrics ==> lines == []
  {
    if id in st.lyrics then st.lyrics[id] else []
  }

  // ---------------------------------------------------------------------
  // Filtering

  /** `applyFilter(keyword)`: recompute the visible list, then wrap both
      cursors into it, using length 1 when it is empty. */
  function ApplyFilter(st: State, keyword: string): (r: State)
    ensures r.filtered == Visible(st.songs, keyword)
    ensures CursorsInRange(r)
    ensures r.currentIndex == ClampIndex(st.currentIndex, |r.filtered|)
    ensures r.selectedIndex == ClampIndex(st.selectedIndex, |r.filtered|)
    ensures 0 <= st.currentIndex < |r.filtered| ==> r.currentIndex == st.currentIndex
    ensures 0 <= st.selectedIndex < |r.filtered| ==> r.selectedIndex == st.selectedIndex
    ensures r == st.(filtered := r.filtered, currentIndex := r.currentIndex, selectedIndex := r.selectedIndex)
  {
    var f := Visible(st.songs, keyword);
    st.(filtered := f,
        currentIndex := ClampIndex(st.currentIndex, LenOr1(|f|)),
        selectedIndex := ClampIndex(st.selectedIndex, LenOr1(|f|)))
  }

  /** Typing in the search box: the box's text becomes the query and is
      applied. */
  function Search(st: State, text: string): (r: State)
    ensures r.query == text && r.songs == st.songs
    ensures r.filtered == Visible(st.songs, text)
    ensures Consistent(r)
    ensures r == ApplyFilter(st.(query := text), text)
    ensures Valid(st) ==> Valid(r)
  {
    ApplyFilter(st.(query := text), text)
  }

  /** A search that matches nothing empties the visible list and sends both
      cursors to 0. */
  lemma {:induction false} NoMatchEmptiesList(st: State, keyword: string)
    requires SearchKey(keyword) != []
    requires forall i :: 0 <= i < |st.songs| ==> !Matches(st.songs[i], SearchKey(keyword))
    ensures ApplyFilter(st, keyword).filtered == []
    ensures ApplyFilter(st, keyword).currentIndex == 0 && ApplyFilter(st, keyword).selectedIndex == 0
  {
    VisibleIsFilter(st.songs, keyword);
  }

  // ---------------------------------------------------------------------
  // Playback

  /** `playAt(i)`: a no-op on an empty list; otherwise both cursors move to
      `i` wrapped into the list, the song's highlighter restarts, the song
      goes to the front of the history and becomes the stored last song. */
  function PlayAt(st: State, i: int): (r: State)
    ensures |st.filtered| == 0 ==> r == st
    ensures |st.filtered| > 0 ==>
      && r.currentIndex == r.selectedIndex == ClampIndex(i, |st.filtered|)
      && 0 <= r.currentIndex < |st.filtered|
    ensures 0 <= i < |st.filtered| ==> r.currentIndex == i
    ensures |st.filtered| > 0 ==>
      && 1 <= |r.recent| <= MaxRecent
      && r.recent == PushRecent(st.recent, st.filtered[r.currentIndex].id)
      && r.recent[0] == st.filtered[r.currentIndex].id
      && st.filtered[r.currentIndex].id !in r.recent[1..]
      && (NoDup(st.recent) ==> NoDup(r.recent))
      && r.lastPlayed == Some(st.filtered[r.currentIndex].id)
      && r.highlight == StartHighlight(LinesOf(st, st.filtered[r.currentIndex].id))
      && (r.highlight.Off? <==> LinesOf(st, st.filtered[r.currentIndex].id) == [])
      && (r.highlight.Cycling? ==>
            r.highlight.line == 0 && r.highlight.count == |LinesOf(st, st.filtered[r.currentIndex].id)|)
    ensures r.songs == st.songs && r.filtered == st.filtered && r.query == st.query
    ensures r.lyrics == st.lyrics && r.fontSize == st.fontSize
    ensures Valid(st) ==> Valid(r)
  {
    if |st.filtered| == 0 then st
    else
      var c := ClampIndex(i, |st.filtered|);
      var song := st.filtered[c];
      st.(currentIndex := c,
          selectedIndex := c,
          highlight := StartHighlight(LinesOf(st, song.id)),
          recent := PushRecent(st.recent, song.id),
          lastPlayed := Some(song.id))
  }

  /** The "next" button: play the entry after the current one. */
  function NextSong(st: State): (r: State)
    requires CursorsInRange(st)
    ensures |st.filtered| == 0 ==> r == st
    ensures |st.filtered| > 0 ==>
      r.currentIndex == (if st.currentIndex == |st.filtered| - 1 then 0 else st.currentIndex + 1)
    ensures |st.filtered| > 0 ==> r == PlayAt(st, st.currentIndex + 1)
    ensures Valid(st) ==> Valid(r)
  {
    if |st.filtered| == 0 then st
    else
      WrapNext(st.currentIndex, |st.filtered|);
      PlayAt(st, st.currentIndex + 1)
  }

  /** The "previous" button: play the entry before the current one. */
  function PrevSong(st: State): (r: State)
    requires CursorsInRange(st)
    ensures |st.filtered| == 0 ==> r == st
    ensures |st.filtered| > 0 ==>
      r.currentIndex == (if st.currentIndex == 0 then |st.filtered| - 1 else st.currentIndex - 1)
    ensures |st.filtered| > 0 ==> r == PlayAt(st, st.currentIndex - 1)
    ensures Valid(st) ==> Valid(r)
  {
    if |st.filtered| == 0 then st
    else
      WrapPrev(st.currentIndex, |st.filtered|);
      PlayAt(st, st.currentIndex - 1)
  }

  /** "Previous" undoes "next": the playing position returns to where it was. */
  lemma PrevUndoesNext(st: State)
    requires CursorsInRange(st)
    ensures CursorsInRange(NextSong(st))
    ensures PrevSong(NextSong(st)).currentIndex == st.currentIndex
  {
  }

  // ---------------------------------------------------------------------
  // Selection: wheel buttons, wheel items, drag and scroll

  /** Move the selection cursor by `dir` around the visible list
      (`clampIndex(selectedIndex + dir, filtered.length || 1)`); playback is
      untouched. */
  function MoveSelection(st: State, dir: int): (r: State)
    ensures CursorsInRange(st) ==> CursorsInRange(r)
    ensures r.selectedIndex == ClampIndex(st.selectedIndex + dir, |st.filtered|)
    ensures r == st.(selectedIndex := r.selectedIndex)
    ensures Valid(st) ==> Valid(r)
  {
    st.(selectedIndex := ClampIndex(st.selectedIndex + dir, LenOr1(|st.filtered|)))
  }

  /** The wheel's "left" button: select the previous entry, wrapping to the last. */
  function WheelLeft(st: State): (r: State)
    requires CursorsInRange(st)
    ensures CursorsInRange(r)
    ensures |st.filtered| > 0 ==>
      r.selectedIndex == (if st.selectedIndex == 0 then |st.filtered| - 1 else st.selectedIndex - 1)
    ensures r == st.(selectedIndex := r.selectedIndex)
    ensures Valid(st) ==> Valid(r)
  {
    assert |st.filtered| > 0 ==>
      ClampIndex(st.selectedIndex - 1, |st.filtered|)
        == (if st.selectedIndex == 0 then |st.filtered| - 1 else st.selectedIndex - 1) by {
      if |st.filtered| > 0 { WrapPrev(st.selectedIndex, |st.filtered|); }
    }
    MoveSelection(st, -1)
  }

  /** The wheel's "right" button: select the next entry, wrapping to the first. */
  function WheelRight(st: State): (r: State)
    requires CursorsInRange(st)
    ensures CursorsInRange(r)
    ensures |st.filtered| > 0 ==>
      r.selectedIndex == (if st.selectedIndex == |st.filtered| - 1 then 0 else st.selectedIndex + 1)
    ensures r == st.(selectedIndex := r.selectedIndex)
    ensures Valid(st) ==> Valid(r)
  {
    assert |st.filtered| > 0 ==>
      ClampIndex(st.selectedIndex + 1, |st.filtered|)
        == (if st.selectedIndex == |st.filtered| - 1 then 0 else st.selectedIndex + 1) by {
      if |st.filtered| > 0 { WrapNext(st.selectedIndex, |st.filtered|); }
    }
    MoveSelection(st, 1)
  }

  /** "Left" then "right" restores the selection (and so the whole state). */
  lemma WheelRightUndoesLeft(st: State)
    requires CursorsInRange(st)
    ensures WheelRight(WheelLeft(st)) == st
  {
  }

  /** The wheel's "pick" button: play the selected entry. */
  function WheelPick(st: State): (r: State)
    requires CursorsInRange(st)
    ensures |st.filtered| > 0 ==> r.currentIndex == r.selectedIndex == st.selectedIndex
    ensures |st.filtered| > 0 ==> |r.recent| > 0 && r.recent[0] == st.filtered[st.selectedIndex].id
    ensures |st.filtered| == 0 ==> r == st
    ensures r == PlayAt(st, st.selectedIndex)
    ensures Valid(st) ==> Valid(r)
  {
    PlayAt(st, st.selectedIndex)
  }

  /** The entries the wheel draws, as positions in the visible list. */
  function WheelSlots(st: State): (w: seq<int>)
    requires CursorsInRange(st)
    ensures |w| == Min(MaxSlots, |st.filtered|)
    ensures forall k :: 0 <= k < |w| ==> 0 <= w[k] < |st.filtered|
    ensures forall k, l :: 0 <= k < l < |w| ==> w[k] != w[l]
    ensures forall k :: 0 <= k < |w| ==> (w[k] == st.selectedIndex <==> k == |w| / 2)
  {
    Window(st.selectedIndex, |st.filtered|)
  }

  /** Clicking the wheel item in slot `k` selects the entry it shows. */
  function WheelClick(st: State, k: int): (r: State)
    requires CursorsInRange(st) && 0 <= k < |WheelSlots(st)|
    ensures CursorsInRange(r)
    ensures r.selectedIndex == WheelSlots(st)[k]
    ensures r == st.(selectedIndex := r.selectedIndex)
    ensures Valid(st) ==> Valid(r)
  {
    st.(selectedIndex := WheelSlots(st)[k])
  }

  /** Pointer tracking for a drag on the wheel. */
  datatype DragState = DragState(dragging: bool, lastX: int)

  /** Mouse-down or touch-start at `x`. */
  function PointerDown(x: int): (d: DragState)
    ensures d.dragging && d.lastX == x
  {
    DragState(true, x)
  }

  /** Mouse-up or touch-end. */
  function PointerUp(d: DragState): (r: DragState)
    ensures !r.dragging && r.lastX == d.lastX
  {
    d.(dragging := false)
  }

  /** Pointer movement to `x`: while dragging, a step of more than 3 pixels
      since the last event moves the selection, one entry back for a swipe
      to the right and one entry on for a swipe to the left. Every event
      while dragging becomes the new reference point, so slow movement never
      adds up. */
  function PointerMove(st: State, d: DragState, x: int): (r: (State, DragState))
    ensures !d.dragging ==> r == (st, d)
    ensures d.dragging ==> r.1 == DragState(true, x)
    ensures d.dragging && x - d.lastX > 3 ==> r.0 == MoveSelection(st, -1)
    ensures d.dragging && x - d.lastX < -3 ==> r.0 == MoveSelection(st, 1)
    ensures -3 <= x - d.lastX <= 3 ==> r.0 == st
  {
    if !d.dragging then (st, d)
    else
      var dx := x - d.lastX;
      var d' := DragState(true, x);
      if Abs(dx) > 3 then
        var dir := if dx > 0 then -1 else 1;
        (MoveSelection(st, dir), d')
      else (st, d')
  }

  /** The pointer moving through the positions `xs`, one event each. */
  function DragAll(st: State, d: DragState, xs: seq<int>): (r: (State, DragState))
    ensures !d.dragging ==> r == (st, d)
    ensures d.dragging && |xs| > 0 ==> r.1 == DragState(true, xs[|xs| - 1])
    ensures Valid(st) ==> Valid(r.0)
    decreases |xs|
  {
    if xs == [] then (st, d)
    else
      var m := PointerMove(st, d, xs[0]);
      DragAll(m.0, m.1, xs[1..])
  }

  /** Every event of `xs` lies within 3 pixels of the one before it, the
      first within 3 pixels of `x0`. */
  predicate SmallSteps(x0: int, xs: seq<int>)
  {
    && (|xs| > 0 ==> -3 <= xs[0] - x0 <= 3)
    && forall i :: 0 < i < |xs| ==> -3 <= xs[i] - xs[i - 1] <= 3
  }

  /** A drag whose every event moves at most 3 pixels leaves the selection
      where it was, however many events there are and however far the
      pointer travels in total. */
  lemma {:induction false} SlowDragNeverSelects(st: State, d: DragState, xs: seq<int>)
    requires SmallSteps(d.lastX, xs)
    ensures DragAll(st, d, xs).0 == st
    decreases |xs|
  {
    if xs != [] && d.dragging {
      var m := PointerMove(st, d, xs[0]);
      assert m == (st, DragState(true, xs[0]));
      assert SmallSteps(xs[0], xs[1..]) by {
        forall i | 0 < i < |xs[1..]|
          ensures -3 <= xs[1..][i] - xs[1..][i - 1] <= 3
        {
          assert xs[1..][i] == xs[i + 1] && xs[1..][i - 1] == xs[i];
        }
      }
      SlowDragNeverSelects(st, m.1, xs[1..]);
    }
  }

  /** For example, three 3-pixel steps after pressing at 0 select nothing. */
  lemma SlowDragSelectsNothing(st: State)
    ensures var d0 := PointerDown(0);
      var m1 := PointerMove(st, d0, 3);
      var m2 := PointerMove(m1.0, m1.1, 6);
      var m3 := PointerMove(m2.0, m2.1, 9);
      m3.0 == st && m3.1.lastX == 9
  {
  }

  /** Mouse-wheel scrolling: down (`deltaY > 0`) selects the next entry,
      anything else the previous one. */
  function Scroll(st: State, deltaY: int): (r: State)
    ensures deltaY > 0 ==> r == MoveSelection(st, 1)
    ensures deltaY <= 0 ==> r == MoveSelection(st, -1)
    ensures CursorsInRange(st) && deltaY > 0 ==> r == WheelRight(st)
    ensures CursorsInRange(st) && deltaY <= 0 ==> r == WheelLeft(st)
    ensures r.currentIndex == st.currentIndex
  {
    MoveSelection(st, if deltaY > 0 then 1 else -1)
  }

  // ---------------------------------------------------------------------
  // Lyrics panel and history buttons

  /** The "bigger" lyrics button. */
  function FontBigger(st: State): (r: State)
    ensures r == st.(fontSize := r.fontSize)
    ensures r.fontSize == Bigger(st.fontSize)
    ensures Valid(st) ==> Valid(r)
  {
    st.(fontSize := Bigger(st.fontSize))
  }

  /** The "smaller" lyrics button. */
  function FontSmaller(st: State): (r: State)
    ensures r == st.(fontSize := r.fontSize)
    ensures r.fontSize == Smaller(st.fontSize)
    ensures Valid(st) ==> Valid(r)
  {
    st.(fontSize := Smaller(st.fontSize))
  }

  /** One tick of the highlight timer. */
  function TickLyrics(st: State): (r: State)
    requires ValidHighlight(st.highlight)
    ensures r == st.(highlight := r.highlight)
    ensures r.highlight == Tick(st.highlight)
    ensures Valid(st) ==> Valid(r)
  {
    st.(highlight := Tick(st.highlight))
  }

  /** The "clear recent" button. */
  function ClearRecent(st: State): (r: State)
    ensures r.recent == [] && r == st.(recent := [])
  {
    st.(recent := [])
  }

  /** Clicking a history chip: play the song if the visible list shows it;
      otherwise clear the search box, filter by the empty text and play it
      from the full list. */
  function PlayRecent(st: State, id: SongId): (r: State)
    ensures FindIndex(st.songs, id) >= 0 ==>
      && 0 <= r.currentIndex < |r.filtered|
      && r.filtered[r.currentIndex].id == id
      && |r.recent| > 0 && r.recent[0] == id
    ensures FindIndex(st.filtered, id) >= 0 ==> r.query == st.query
    ensures FindIndex(st.filtered, id) < 0 ==> r.query == [] && r.filtered == st.songs
    ensures FindIndex(st.filtered, id) < 0 && FindIndex(st.songs, id) < 0 ==>
      r.recent == st.recent && r.currentIndex == ClampIndex(st.currentIndex, |st.songs|)
    ensures FindIndex(st.filtered, id) >= 0 ==> r == PlayAt(st, FindIndex(st.filtered, id))
    ensures FindIndex(st.filtered, id) < 0 && FindIndex(st.songs, id) >= 0 ==>
      r == PlayAt(ClearSearch(st), FindIndex(st.songs, id))
    ensures FindIndex(st.filtered, id) < 0 && FindIndex(st.songs, id) < 0 ==> r == ClearSearch(st)
    ensures Consistent(st) ==> Consistent(r)
    ensures Valid(st) ==> Valid(r)
  {
    var idx := FindIndex(st.filtered, id);
    if idx >= 0 then PlayAt(st, idx)
    else
      var cleared := ClearSearch(st);
      var idx2 := FindIndex(cleared.filtered, id);
      if idx2 >= 0 then PlayAt(cleared, idx2) else cleared
  }

  /** Emptying the search box and applying the empty text shows the whole
      catalog again. */
  function ClearSearch(st: State): (r: State)
    ensures r.query == [] && r.filtered == st.songs && r.songs == st.songs
    ensures Consistent(r) && CursorsInRange(r)
    ensures r == st.(query := [], filtered := st.songs,
                     currentIndex := ClampIndex(st.currentIndex, |st.songs|),
                     selectedIndex := ClampIndex(st.selectedIndex, |st.songs|))
  {
    EmptySearchShowsAll(st.songs);
    ApplyFilter(st.(query := ""), "")
  }

  // ---------------------------------------------------------------------
  // Shuffle

  /** The first half of the shuffle button: reorder the catalog with the
      Fisher-Yates pass and re-apply the search box text. */
  function Reshuffle(st: State, draws: seq<nat>): (r: State)
    requires ValidDraws(draws, |st.songs|)
    ensures r.songs == FisherYates(st.songs, draws, |st.songs| - 1)
    ensures multiset(r.songs) == multiset(st.songs) && |r.songs| == |st.songs|
    ensures r.query == st.query && Consistent(r) && CursorsInRange(r)
    ensures r == st.(songs := r.songs, filtered := r.filtered,
                     currentIndex := r.currentIndex, selectedIndex := r.selectedIndex)
  {
    FisherYatesPermutes(st.songs, draws, |st.songs| - 1);
    var shuffled := st.(songs := FisherYates(st.songs, draws, |st.songs| - 1));
    ApplyFilter(shuffled, st.query)
  }

  /** The shuffle button: reorder the catalog, re-apply the search box text
      and play the first visible entry. */
  function ShuffleAll(st: State, draws: seq<nat>): (r: State)
    requires ValidDraws(draws, |st.songs|)
    ensures r.songs == FisherYates(st.songs, draws, |st.songs| - 1)
    ensures multiset(r.songs) == multiset(st.songs) && |r.songs| == |st.songs|
    ensures r.query == st.query && Consistent(r)
    ensures r.lyrics == st.lyrics && r.fontSize == st.fontSize
    ensures |r.filtered| > 0 ==>
      && r.currentIndex == 0 && r.selectedIndex == 0
      && r.recent == PushRecent(st.recent, r.filtered[0].id)
      && r.recent[0] == r.filtered[0].id
      && r.lastPlayed == Some(r.filtered[0].id)
      && r.highlight == StartHighlight(LinesOf(st, r.filtered[0].id))
    ensures |r.filtered| == 0 ==>
      && r.currentIndex == 0 && r.selectedIndex == 0
      && r.recent == st.recent && r.lastPlayed == st.lastPlayed && r.highlight == st.highlight
    ensures Valid(st) ==> Valid(r)
  {
    var f := Reshuffle(st, draws);
    PlayFirst(f);
    PlayAt(f, 0)
  }

  /** What playing the first visible entry does, in terms of the state
      before it. */
  lemma PlayFirst(f: State)
    requires CursorsInRange(f)
    ensures var r := PlayAt(f, 0);
      && r.songs == f.songs && r.filtered == f.filtered && r.query == f.query
      && r.lyrics == f.lyrics && r.fontSize == f.fontSize
      && (|f.filtered| > 0 ==>
            && r.currentIndex == 0 && r.selectedIndex == 0
            && r.recent == PushRecent(f.recent, f.filtered[0].id)
            && r.lastPlayed == Some(f.filtered[0].id)
            && r.highlight == StartHighlight(LinesOf(f, f.filtered[0].id)))
      && (|f.filtered| == 0 ==> r == f && r.currentIndex == 0 && r.selectedIndex == 0)
  {
  }

  // ---------------------------------------------------------------------
  // Start-up

  /** The position start-up resumes at: the first visible song with the
      stored id, or 0 when no id is stored, the stored id is empty, or no
      song has it. */
  function RestoreIndex(filtered: seq<Song>, lastId: Option<SongId>): (r: nat)
    ensures r == 0 || r < |filtered|
    ensures lastId.Some? && lastId.value != [] && FindIndex(filtered, lastId.value) >= 0 ==>
      r < |filtered| && filtered[r].id == lastId.value
      && forall i :: 0 <= i < r ==> filtered[i].id != lastId.value
    ensures lastId.None? || lastId.value == [] ==> r == 0
    ensures lastId.Some? && (forall i :: 0 <= i < |filtered| ==> filtered[i].id != lastId.value) ==> r == 0
  {
    if lastId.Some? && lastId.value != [] then
      var idx := FindIndex(filtered, lastId.value);
      if idx >= 0 then idx else 0
    else 0
  }

  /** The state `main` reaches before its first play: the whole catalog
      visible, both cursors at the restored position, the stored history
      loaded as it was stored. */
  function Restored(catalog: seq<Song>, lyrics: map<SongId, seq<string>>,
                    storedRecent: Option<seq<SongId>>, storedLast: Option<SongId>): (r: State)
    ensures Valid(r)
    ensures r.songs == catalog && r.filtered == catalog && r.query == [] && r.lyrics == lyrics
    ensures r.fontSize == InitialFont && r.highlight == Off
    ensures r.currentIndex == r.selectedIndex == RestoreIndex(catalog, storedLast)
    ensures r.recent == storedRecent.GetOr([]) && r.lastPlayed == storedLast
  {
    var idx := RestoreIndex(catalog, storedLast);
    State(catalog, catalog, lyrics, [], idx, idx, InitialFont, storedRecent.GetOr([]), storedLast, Off)
  }

  /** `main` without its I/O: the catalog, lyrics and stored values are
      inputs; it resumes at the stored last song and plays it when the
      catalog is not empty. */
  function Startup(catalog: seq<Song>, lyrics: map<SongId, seq<string>>,
                   storedRecent: Option<seq<SongId>>, storedLast: Option<SongId>): (r: State)
    ensures r.songs == catalog && r.filtered == catalog && r.query == []
    ensures r.fontSize == InitialFont
    ensures |catalog| == 0 ==> r.recent == storedRecent.GetOr([]) && r.currentIndex == 0
    ensures |catalog| > 0 ==>
      && r.currentIndex == RestoreIndex(catalog, storedLast)
      && |r.recent| > 0 && r.recent[0] == catalog[r.currentIndex].id
      && r.lastPlayed == Some(catalog[r.currentIndex].id)
      && r.recent == PushRecent(storedRecent.GetOr([]), catalog[r.currentIndex].id)
      && r.highlight == StartHighlight(if catalog[r.currentIndex].id in lyrics then lyrics[catalog[r.currentIndex].id] else [])
    ensures |catalog| == 0 ==> r.lastPlayed == storedLast && r.highlight == Off
    ensures r.selectedIndex == r.currentIndex && r.lyrics == lyrics
    ensures Valid(r)
  {
    var st := Restored(catalog, lyrics, storedRecent, storedLast);
    if |catalog| > 0 then PlayAt(st, st.currentIndex) else st
  }

  /** Start-up leaves the visible list consistent with the (empty) search box. */
  lemma StartupConsistent(catalog: seq<Song>, lyrics: map<SongId, seq<string>>,
                          storedRecent: Option<seq<SongId>>, storedLast: Option<SongId>)
    ensures Consistent(Startup(catalog, lyrics, storedRecent, storedLast))
  {
    EmptySearchShowsAll(catalog);
  }

  /** Playing a song with two lyric lines starts a highlight that alternates
      between line 0 and line 1, one step per tick. */
  lemma TwoLineScenario(st: State, k: nat)
    requires |st.filtered| > 0 && 0 <= st.currentIndex < |st.filtered|
    requires |LinesOf(st, st.filtered[st.currentIndex].id)| == 2
    ensures var h := PlayAt(st, st.currentIndex).highlight;
      ValidHighlight(h) && Ticks(h, k) == Cycling(2, k % 2)
  {
    var lines := LinesOf(st, st.filtered[st.currentIndex].id);
    assert PlayAt(st, st.currentIndex).highlight == StartHighlight(lines);
    HighlightCycles(lines, k);
  }

  /** From start-up with three songs: playing the third and pressing "next"
      wraps around to the first. */
  lemma ThreeSongScenario(a: Song, b: Song, c: Song)
    ensures var st := PlayAt(Search(Startup([a, b, c], map[], None, None), ""), 2);
      && st.currentIndex == 2 && st.filtered[2] == c
      && NextSong(st).currentIndex == 0 && NextSong(st).filtered[0] == a
  {
    assert SearchKey("") == [];
  }
}

=== FILE: recent.dfy ===
/** The recently played list: song ids, most recent first, at most ten. */
module Recent {
  import opened Seqs

  const MaxRecent := 10

  /** `[id, ...recent.filter(x => x !== id)].slice(0, 10)`. */
  function PushRecent(recent: seq<string>, id: string): (r: seq<string>)
    ensures 1 <= |r| <= MaxRecent
    ensures |r| == Min(MaxRecent, 1 + |Without(recent, id)|)
    ensures r[0] == id && id !in r[1..]
    ensures r[1..] == Without(recent, id)[..|r| - 1]
    ensures forall x :: x in r ==> x == id || x in recent
    ensures NoDup(recent) ==> NoDup(r)
  {
    var rest := Without(recent, id);
    var n := Min(MaxRecent, 1 + |rest|);
    PushRecentFacts(recent, id, rest, n);
    ([id] + rest)[..n]
  }

  /** The facts `PushRecent` promises about its truncated list. */
  lemma PushRecentFacts(recent: seq<string>, id: string, rest: seq<string>, n: nat)
    requires rest == Without(recent, id) && n == Min(MaxRecent, 1 + |rest|)
    ensures var r := ([id] + rest)[..n];
      && r[0] == id && id !in r[1..]
      && r[1..] == rest[..n - 1]
      && (forall x :: x in r ==> x == id || x in recent)
      && (NoDup(recent) ==> NoDup(r))
  {
    var r := ([id] + rest)[..n];
    assert r[1..] == rest[..n - 1];
    assert forall x :: x in r[1..] ==> x in rest;
    assert r == [r[0]] + r[1..];
    NoDupCons(id, r[1..]);
    NoDupPrefix(rest, n - 1);
  }

  lemma NoDupPrefix<T>(xs: seq<T>, n: nat)
    requires n <= |xs|
    ensures NoDup(xs) ==> NoDup(xs[..n])
  {
  }

  /** Playing the same song twice in a row leaves the history as after the
      first play. */
  lemma PushRecentIdempotent(recent: seq<string>, id: string)
    ensures PushRecent(PushRecent(recent, id), id) == PushRecent(recent, id)
  {
    var r := PushRecent(recent, id);
    assert r == [id] + r[1..];
    assert Without(r, id) == Without(r[1..], id);
    assert Without(r[1..], id) == r[1..];
  }

  /** Every id in the history other than the newest was in the old history,
      and the old entries keep their relative order. */
  lemma PushRecentKeepsOrder(recent: seq<string>, id: string)
    ensures IsSubsequence(PushRecent(recent, id)[1..], recent)
  {
    var r := PushRecent(recent, id);
    var w := Without(recent, id);
    PrefixIsSubsequence(w, |r| - 1);
    SubsequenceTrans(r[1..], w, recent);
  }

  lemma {:induction false} PrefixIsSubsequence<T>(xs: seq<T>, n: nat)
    requires n <= |xs|
    ensures IsSubsequence(xs[..n], xs)
    decreases n
  {
    if n > 0 {
      PrefixIsSubsequence(xs[1..], n - 1);
      assert xs[..n][1..] == xs[1..][..n - 1];
    }
  }

  lemma {:induction false} SubsequenceTrans<T>(a: seq<T>, b: seq<T>, c: seq<T>)
    requires IsSubsequence(a, b) && IsSubsequence(b, c)
    ensures IsSubsequence(a, c)
    decreases |c|
  {
    if a != [] {
      assert b != [] && c != [];
      if b[0] == c[0] && IsSubsequence(b[1..], c[1..]) {
        if a[0] == b[0] && IsSubsequence(a[1..], b[1..]) {
          SubsequenceTrans(a[1..], b[1..], c[1..]);
        } else {
          SubsequenceTrans(a, b[1..], c[1..]);
        }
      } else {
        SubsequenceTrans(a, b, c[1..]);
      }
    }
  }
}

=== FILE: seqs.dfy ===
/** Facts about sequences shared by the catalog and the history. */
module Seqs {

  function Min(a: int, b: int): (r: int)
    ensures r <= a && r <= b && (r == a || r == b)
  {
    if a <= b then a else b
  }

  /** `a` is `b` with some elements deleted, the rest kept in order. */
  predicate IsSubsequence<T(==)>(a: seq<T>, b: seq<T>)
    decreases |b|
  {
    a == [] || (b != [] && ((a[0] == b[0] && IsSubsequence(a[1..], b[1..])) || IsSubsequence(a, b[1..])))
  }

  /** No element occurs twice. */
  predicate NoDup<T(==)>(xs: seq<T>)
  {
    forall i, j :: 0 <= i < j < |xs| ==> xs[i] != xs[j]
  }

  /** `xs.filter(y => y !== x)`: every occurrence of `x` removed. */
  function Without<T(==,!new)>(xs: seq<T>, x: T): (r: seq<T>)
    ensures |r| <= |xs|
    ensures forall y :: y in r <==> y in xs && y != x
    ensures IsSubsequence(r, xs)
    ensures NoDup(xs) ==> NoDup(r)
    ensures x !in xs ==> r == xs
    ensures forall y :: multiset(r)[y] == if y == x then 0 else multiset(xs)[y]
  {
    if xs == [] then []
    else
      var rest := Without(xs[1..], x);
      assert xs == [xs[0]] + xs[1..];
      assert multiset(xs) == multiset{xs[0]} + multiset(xs[1..]);
      if xs[0] == x then
        WeakenSubsequence(rest, xs);
        rest
      else
        assert ([xs[0]] + rest)[1..] == rest;
        NoDupCons(xs[0], xs[1..]);
        NoDupCons(xs[0], rest);
        assert multiset([xs[0]] + rest) == multiset{xs[0]} + multiset(rest);
        [xs[0]] + rest
  }

  /** A list headed by `h` is duplicate-free exactly when its tail is and
      does not contain `h`. */
  lemma NoDupCons<T>(h: T, t: seq<T>)
    ensures NoDup([h] + t) <==> h !in t && NoDup(t)
  {
    var xs := [h] + t;
    if h !in t && NoDup(t) {
      forall i, j | 0 <= i < j < |xs|
        ensures xs[i] != xs[j]
      {
        if i == 0 {
          assert xs[j] == t[j - 1];
        } else {
          assert xs[i] == t[i - 1] && xs[j] == t[j - 1];
        }
      }
    }
    if NoDup(xs) {
      forall i, j | 0 <= i < j < |t|
        ensures t[i] != t[j]
      {
        assert t[i] == xs[i + 1] && t[j] == xs[j + 1];
      }
      forall k | 0 <= k < |t|
        ensures t[k] != h
      {
        assert t[k] == xs[k + 1] && h == xs[0];
      }
    }
  }

  /** A subsequence of a tail is a subsequence of the whole. */
  lemma WeakenSubsequence<T>(a: seq<T>, b: seq<T>)
    requires b != [] && IsSubsequence(a, b[1..])
    ensures IsSubsequence(a, b)
  {
  }
}

=== FILE: shuffle.dfy ===
/**
  The shuffle button's Fisher-Yates pass over the catalog. The random
  choices are an input: `draws[i]` is the position `Math.floor(Math.random()
  * (i + 1))` picked when the pass reaches position `i`.
 */
module Shuffle {

  /** Each draw lies in `[0, i]`, as the random pick of step `i` does. */
  predicate ValidDraws(draws: seq<nat>, n: nat)
  {
    |draws| == n && forall i :: 0 <= i < n ==> draws[i] <= i
  }

  /** `[s[i], s[j]] = [s[j], s[i]]`. */
  function Swap<T>(s: seq<T>, i: nat, j: nat): (r: seq<T>)
    requires i < |s| && j < |s|
    ensures |r| == |s| && r[i] == s[j] && r[j] == s[i]
    ensures forall k :: 0 <= k < |s| && k != i && k != j ==> r[k] == s[k]
  {
    s[i := s[j]][j := s[i]]
  }

  /** The pass from position `i` down to 1, as a function of the draws. */
  function FisherYates<T>(s: seq<T>, draws: seq<nat>, i: int): (r: seq<T>)
    requires ValidDraws(draws, |s|) && i < |s|
    ensures |r| == |s|
    ensures forall k :: 0 <= k < |s| && i < k ==> r[k] == s[k]
    decreases i
  {
    if i <= 0 then s else FisherYates(Swap(s, i, draws[i]), draws, i - 1)
  }

  /** The loop of `shuffle` on a copy of the catalog: for every choice of
      draws the result is a rearrangement of the input. */
  method ShuffleSongs<T>(songs: seq<T>, draws: seq<nat>) returns (r: seq<T>)
    requires ValidDraws(draws, |songs|)
    ensures |r| == |songs|
    ensures multiset(r) == multiset(songs)
    ensures r == FisherYates(songs, draws, |songs| - 1)
  {
    var a := songs;
    var i := |songs| - 1;
    while i > 0
      invariant -1 <= i < |songs| && |a| == |songs|
      invariant FisherYates(a, draws, i) == FisherYates(songs, draws, |songs| - 1)
    {
      a := Swap(a, i, draws[i]);
      i := i - 1;
    }
    r := a;
    FisherYatesPermutes(songs, draws, |songs| - 1);
  }

  /** A swap only rearranges the elements. */
  lemma SwapPermutes<T>(s: seq<T>, i: nat, j: nat)
    requires i < |s| && j < |s|
    ensures multiset(Swap(s, i, j)) == multiset(s)
  {
  }

  /** Whatever the draws, the pass only rearranges the elements. */
  lemma {:induction false} FisherYatesPermutes<T>(s: seq<T>, draws: seq<nat>, i: int)
    requires ValidDraws(draws, |s|) && i < |s|
    ensures multiset(FisherYates(s, draws, i)) == multiset(s)
    decreases i
  {
    if i > 0 {
      var t := Swap(s, i, draws[i]);
      var r := FisherYates(t, draws, i - 1);
      FisherYatesPermutes(t, draws, i - 1);
      assert multiset(r) == multiset(t);
      SwapPermutes(s, i, draws[i]);
      assert FisherYates(s, draws, i) == r;
    }
  }
}

=== FILE: text.dfy ===
/**
  The string operations the search box relies on: `trim`, `toLowerCase` and
  `includes`, over strings as sequences of characters.
 */
module Text {

  /** The characters `String.prototype.trim` removes: the WhiteSpace and
      LineTerminator code points of ECMAScript. */
  predicate IsSpace(c: char)
  {
    || '\t' <= c <= '\r'                    // tab, line feed, vertical tab, form feed, carriage return
    || c == ' ' || c == '\U{A0}' || c == '\U{1680}'
    || '\U{2000}' <= c <= '\U{200A}'
    || c == '\U{2028}' || c == '\U{2029}' || c == '\U{202F}' || c == '\U{205F}'
    || c == '\U{3000}' || c == '\U{FEFF}'
  }

  /** The first position at or after `k` that does not hold white space,
      or `|s|` when there is none. */
  function SkipSpaces(s: string, k: nat): (e: nat)
    requires k <= |s|
    ensures k <= e <= |s|
    ensures forall i :: k <= i < e ==> IsSpace(s[i])
    ensures e < |s| ==> !IsSpace(s[e])
    decreases |s| - k
  {
    if k == |s| || !IsSpace(s[k]) then k else SkipSpaces(s, k + 1)
  }

  /** Walking back from `k` to no further than `lo`: the end of `s[lo..k]`
      once its trailing white space is dropped. */
  function SkipSpacesBack(s: string, lo: nat, k: nat): (e: nat)
    requires lo <= k <= |s|
    ensures lo <= e <= k
    ensures forall i :: e <= i < k ==> IsSpace(s[i])
    ensures e > lo ==> !IsSpace(s[e - 1])
    decreases k
  {
    if k == lo || !IsSpace(s[k - 1]) then k else SkipSpacesBack(s, lo, k - 1)
  }

  /** `s.trim()`: the part of `s` between its leading and its trailing white
      space. */
  function Trim(s: string): (r: string)
    ensures r == [] <==> forall i :: 0 <= i < |s| ==> IsSpace(s[i])
    ensures r != [] ==> !IsSpace(r[0]) && !IsSpace(r[|r| - 1])
    ensures |r| <= |s|
    ensures SkipSpaces(s, 0) + |r| <= |s| && r == s[SkipSpaces(s, 0)..SkipSpaces(s, 0) + |r|]
    ensures forall i :: SkipSpaces(s, 0) + |r| <= i < |s| ==> IsSpace(s[i])
  {
    var a := SkipSpaces(s, 0);
    var e := SkipSpacesBack(s, a, |s|);
    s[a..e]
  }

  /** Lower-casing of one character; only the ASCII letters change. */
  function LowerChar(c: char): (r: char)
    ensures 'A' <= c <= 'Z' ==> 'a' <= r <= 'z' && r as int - c as int == 32
    ensures !('A' <= c <= 'Z') ==> r == c
  {
    if 'A' <= c <= 'Z' then (c as int + 32) as char else c
  }

  /** `s.toLowerCase()`, character by character. */
  function Lower(s: string): (r: string)
    ensures |r| == |s|
    ensures forall i :: 0 <= i < |s| ==> r[i] == LowerChar(s[i])
  {
    if s == [] then [] else [LowerChar(s[0])] + Lower(s[1..])
  }

  /** `k` occurs in `hay` starting at position `i`. */
  predicate OccursAt(k: string, hay: string, i: int)
  {
    0 <= i && i + |k| <= |hay| && hay[i..i + |k|] == k
  }

  /** `hay.includes(k)`. */
  function Includes(hay: string, k: string): (r: bool)
    ensures r <==> exists i :: OccursAt(k, hay, i)
  {
    if k <= hay then
      assert OccursAt(k, hay, 0);
      true
    else if hay == [] then
      assert forall i :: !OccursAt(k, hay, i);
      false
    else
      IncludesStep(hay, k);
      Includes(hay[1..], k)
  }

  /** Past a failed prefix test, an occurrence of `k` in `hay` is an
      occurrence in its tail, shifted by one. */
  lemma IncludesStep(hay: string, k: string)
    requires hay != [] && !(k <= hay)
    ensures (exists i :: OccursAt(k, hay, i)) <==> (exists i :: OccursAt(k, hay[1..], i))
  {
    var tail := hay[1..];
    forall i | OccursAt(k, tail, i)
      ensures OccursAt(k, hay, i + 1)
    {
      assert tail[i..i + |k|] == hay[i + 1..i + 1 + |k|];
    }
    forall i | OccursAt(k, hay, i)
      ensures OccursAt(k, tail, i - 1)
    {
      assert i != 0;
      assert tail[i - 1..i - 1 + |k|] == hay[i..i + |k|];
    }
  }
}

=== FILE: wheel.dfy ===
/** The window of the visible list that the wheel view draws (`renderWheel`). */
module Wheel {
  import opened Index
  import opened Seqs

  /** The wheel never shows more than this many entries. */
  const MaxSlots := 12

  /** The visible-list positions drawn on the wheel, slot by slot: `min(12, n)`
      consecutive positions around the circular list, with the selected one
      in slot `min(12, n) / 2`. Nothing is drawn for an empty list. */
  function Window(selected: int, n: int): (w: seq<int>)
    ensures |w| == (if n <= 0 then 0 else Min(MaxSlots, n))
    ensures forall k :: 0 <= k < |w| ==> 0 <= w[k] < n
    ensures forall k :: 0 < k < |w| ==> w[k] == (w[k - 1] + 1) % n
    ensures forall k, l :: 0 <= k < l < |w| ==> w[k] != w[l]
    ensures 0 <= selected < n ==> w[|w| / 2] == selected
    ensures 0 <= selected < n ==> forall k :: 0 <= k < |w| ==> (w[k] == selected <==> k == |w| / 2)
  {
    if n <= 0 then []
    else
      var m := Min(MaxSlots, n);
      WindowFacts(selected, m, n);
      Slots(selected - m / 2, m, n)
  }

  /** The slot facts of `Window`, for a window of `m <= n` slots centred on
      `selected`. */
  lemma WindowFacts(selected: int, m: nat, n: int)
    requires 0 < m <= n
    ensures var w := Slots(selected - m / 2, m, n);
      && (forall k :: 0 < k < m ==> w[k] == (w[k - 1] + 1) % n)
      && (forall k, l :: 0 <= k < l < m ==> w[k] != w[l])
      && (0 <= selected < n ==> w[m / 2] == selected)
  {
    var start := selected - m / 2;
    SlotsDistinct(start, m, n);
    SlotsConsecutive(start, m, n);
    if 0 <= selected < n {
      ModUnique(start + m / 2, n, 0, selected);
    }
  }

  /** `clampIndex(start + k, n)` for each slot `k` below `m`. */
  function Slots(start: int, m: nat, n: int): (w: seq<int>)
    requires n > 0
    ensures |w| == m
    ensures forall k :: 0 <= k < m ==> w[k] == (start + k) % n
  {
    var w := seq(m, k requires 0 <= k < m => ClampIndex(start + k, n));
    assert forall k :: 0 <= k < m ==> w[k] == ClampIndex(start + k, n);
    w
  }

  lemma SlotsDistinct(start: int, m: nat, n: int)
    requires 0 < n && m <= n
    ensures var w := Slots(start, m, n); forall k, l :: 0 <= k < l < m ==> w[k] != w[l]
  {
    var w := Slots(start, m, n);
    forall k, l | 0 <= k < l < m
      ensures w[k] != w[l]
    {
      ModDistinct(start + k, start + l, n);
    }
  }

  lemma SlotsConsecutive(start: int, m: nat, n: int)
    requires 0 < n
    ensures var w := Slots(start, m, n); forall k :: 0 < k < m ==> w[k] == (w[k - 1] + 1) % n
  {
    var w := Slots(start, m, n);
    forall k | 0 < k < m
      ensures w[k] == (w[k - 1] + 1) % n
    {
      assert w[k - 1] == (start + k - 1) % n;
      ModStep(start + k - 1, n);
    }
  }
}

=== FILE: wrappers.dfy ===
/** The optional value used for lookups that may find nothing. */
module Wrappers {

  datatype Option<+T> = None | Some(value: T) {

    /** The held value, or `default` when there is none. */
    function GetOr(default: T): (r: T)
      ensures Some? ==> r == value
      ensures None? ==> r == default
    {
      match this
      case Some(v) => v
      case None => default
    }
  }
}
